=== FILE: README.md ===
# MUSIO upload service: verified model of its decision logic

This project models, in Dafny, the three pieces of decision logic in the
MUSIO upload service. The service downloads audio from YouTube or SoundCloud,
uploads it to a media host and records songs and playlists in a document
store.

- **HTML escaping in the browser client** (`escapeHtml` in `public/app.js`).
  It is a pure string rewrite that replaces `&`, `<`, `>` and `"` by their
  entities and copies every other character. Module `HtmlEscape`
  (`html_escape.dfy`).
- **The upload form** (`public/app.js`). The submit handler builds the JSON
  payload from the five inputs. After a successful upload it resets part of
  the form. Module `UploadForm` (`upload_form.dfy`). The form is a class
  whose fields the response handler reassigns.
- **The download fallback ladder** of the yt-dlp test script
  (`download_test.js`). Three option sets are tried in order until a call
  returns normally and leaves the output file on disk. Module
  `DownloadTest` (`download_ladder.dfy`). It is one method with a `while`
  loop and a `break`, like the script's `for` loop:
  - the external tool is the sequence of outcomes its successive calls
    produce: it throws, possibly leaving a partial file, or it returns with
    the file present or absent;
  - the disk is a boolean saying whether the single output file exists.
- **The `/sc-upload` route** (`index.js`). Module `ScUpload`
  (`sc_upload.dfy`) models:
  - required-field validation;
  - stripping the query string from the URL;
  - the default artist;
  - the playlist rule: a new playlist takes precedence over an existing id,
    and an existing playlist gets the song appended.

  The song and playlist collections are maps held in a `Db` class. The
  download, the upload, the metadata fetch and id generation are opaque
  steps whose results arrive in an `External` record. The handler returns
  the response and the ordered list of external steps it took.

`wrappers.dfy` holds the `Option` type.

## Model

| member | source | states |
|---|---|---|
| HtmlEscape.Escape | public/app.js:278-280 | `escapeHtml` itself, as a left-to-right, character-by-character replacement. Its contract says the output is never shorter than the input. Its other properties are stated by the lemmas below: `EscapeNoMarkup`, `AmpersandsBeginEntities`, `EscapeConcat`, `EscapeNoSpecial`, `EscapeIdentityIff`, `EscapeLength`, `EscapeAmpersandCount`, `UnescapeEscape`, `EscapeInjective` and `EscapeIdempotentIff`. |
| HtmlEscape.EscapeChar | public/app.js:279 | Only `&`, `<`, `>` and `"` are replaced. Their replacement starts with `&` and ends with `;`. Every other character, `'` included, maps to itself. |
| HtmlEscape.EscapeNoMarkup | public/app.js:279 | The escaped string contains no `<`, no `>` and no `"`. |
| HtmlEscape.AmpersandsBeginEntities | public/app.js:279 | Every `&` in the escaped string begins one of `&amp;`, `&lt;`, `&gt;`, `&quot;`. |
| HtmlEscape.EscapeConcat | public/app.js:279 | Escaping a concatenation is the concatenation of the escapes. Each character is replaced on its own, and the replacements keep the input order. |
| HtmlEscape.EscapeNoSpecial | public/app.js:279 | A string without the four characters is copied unchanged, `'` included. |
| HtmlEscape.EscapeIdentityIff | public/app.js:279 | Escaping leaves a string unchanged if and only if it contains none of the four characters. |
| HtmlEscape.EscapeLength | public/app.js:279 | Output length is the input length plus 4 per `&`, 3 per `<` or `>`, and 5 per `"`. Empty input gives empty output. |
| HtmlEscape.EscapeAmpersandCount | public/app.js:279 | The output has exactly one `&` per replaced character of the input. |
| HtmlEscape.UnescapeEscape | public/app.js:279 | Decoding the four entities in the output gives back the input exactly. |
| HtmlEscape.EscapeInjective | public/app.js:279 | Two inputs with the same escape are equal. |
| HtmlEscape.EscapeIdempotentIff | public/app.js:279 | Escaping twice gives the same result as escaping once only for strings with none of the four characters. For example, `&amp;` becomes `&amp;amp;`. |
| UploadForm.BuildPayload | public/app.js:59-62 | The payload always carries `url` and `title`. `artist`, `playlistId` and `newPlaylistName` are present exactly when the input is non-empty, and then hold the input's value. No other key appears. Reading the payload back, with a missing key taken as empty, gives the form's values. |
| UploadForm.Form.AfterResponse | public/app.js:85-103 | On failure the form is untouched. On success `url` and `title` are cleared. `artist` and `newPlaylistName` are cleared only when the submitted playlist id was empty. The playlist id input is never cleared. The playlist list is fetched again exactly when a new playlist name was submitted. |
| DownloadTest.CookiesOption | download_test.js:9-11 | The cookies option is set exactly when the environment variable is set and non-empty, and then it holds that value. |
| DownloadTest.OptionsList | download_test.js:8-12 | There are three option sets, with formats `bestaudio`, `bestaudio[ext=webm]/bestaudio/best` and `bestaudio/best`. All write the same output path with the same cookies. Only the last sets `allow_unplayable_formats` and `no_playlist`. |
| DownloadTest.LastError | download_test.js:17-29 | How `lastError` is tracked: it starts as null and takes the error of each throwing attempt. Its meaning is stated by `LastErrorIsMostRecent` and `ReturnKeepsLastError`, and `RunDownloadTest` ties the loop's variable to it. |
| DownloadTest.LastErrorIsMostRecent | download_test.js:17-29 | `lastError` is None exactly when no attempt threw. Otherwise it is the error of a throwing attempt that no later attempt follows with a throw. |
| DownloadTest.ReturnKeepsLastError | download_test.js:22-27 | An attempt that returns normally, with or without a file, leaves `lastError` unchanged. |
| DownloadTest.RunDownloadTest | download_test.js:14-43 | Option sets are tried strictly in list order, at most three of them. Every attempt before the last did not succeed. The loop stops at the first attempt that returns with the file present. A normal return without the file is not a success. `downloaded` is true iff the last attempt succeeded, and when it is false all three were tried. `lastError` is the most recent thrown error. Every attempt after the first starts with no file on disk. The exit code is 0 on success and 1 otherwise. No output file remains at exit. |
| ScUpload.HasRequiredFields | index.js:50-52 | `!url \|\| !title` is false: both are present and non-empty. `HandleScUpload` states the consequences: a request failing it gets 400 and no other step. |
| ScUpload.CleanUrl | index.js:60 | The cleaned URL is a prefix of the URL and contains no `?`. When it is shorter than the URL, the next character is `?`, so it is exactly the part before the first `?`. |
| ScUpload.CleanUrlNoQuery | index.js:60 | A URL without `?` is left unchanged. |
| ScUpload.CleanUrlIdempotent | index.js:60 | Cleaning twice is the same as cleaning once. |
| ScUpload.StoredArtist | index.js:92 | The stored artist is the given artist when it is present and non-empty, and `Unknown Artist` otherwise. It is never empty. |
| ScUpload.PlaylistsAfter | index.js:98-111 | With a non-empty new name, a new playlist whose songs are exactly `[song]` is added, the given id is ignored, and no existing playlist changes. Otherwise, an existing playlist with the given id gets the song appended at the end, keeping its earlier entries and name, and other playlists are unchanged. With an unknown or absent id nothing changes. |
| ScUpload.ReportedPlaylist | index.js:98-117 | The response names a playlist exactly when one was created or found. A created one takes precedence, and otherwise the one reported is the one with the requested id. |
| ScUpload.PlaylistEffects | index.js:98-111 | The store accesses of the playlist rule. The store is read first, exactly when no new name is given and an id is present. There are at most two accesses. There is at most one write, which is of the reported playlist and comes last, and a reported playlist is always written. No download, upload or song step is among them. |
| ScUpload.Db.ApplyPlaylistRule | index.js:98-111 | Songs are unchanged. The playlists become `PlaylistsAfter` of the old ones. The store accesses are exactly `PlaylistEffects` of the old playlists. The response names `ReportedPlaylist` of the old playlists. |
| ScUpload.Db.HandleScUpload | index.js:45-121 | A request without a truthy `url` or `title` gets status 400 with no download, upload or store step. Otherwise the first step downloads the cleaned URL. A failed download or upload answers 500 and stores nothing. A failed upload leaves the temporary file in place. On success the temporary file is removed. The song is stored with its title, the default-applied artist, the uploaded URL and the cover image. The playlist rule applies even when the id is unknown, and the response reports success with the song and the playlist, if any. The complete step trace of a success is download, upload, temporary file removal, song save, then the playlist rule's store accesses, and no other modelled step. The metadata fetch, which uses the raw `url`, is not among the modelled steps. |

## Left out

- DOM manipulation, event wiring, `fetch`, toasts, the clipboard, timers and
  HTML templates in `public/app.js`: user interface and I/O. The request the
  client sends is represented only by its payload.
- `UploadForm.BuildPayload`: the key order of the JSON text is not modelled,
  because the payload is a map.
- `UploadForm.Form.AfterResponse`: the method takes the values read at
  submit time as a parameter. While the request runs, the client disables the
  inputs, so these values equal the live ones.
- The cookie-expiry endpoint, audio-format listing, transcoding, the chunked
  upload fallback and retrying a strategy with segment-muxing flags: none of
  them appears in the modelled files.
- In `download_test.js`:
  - starting the yt-dlp process, `fs.existsSync`/`fs.unlinkSync` and
    `process.exit` are not modelled as such. They become the outcome
    sequence, the boolean disk state and the returned exit code;
  - a failing `unlinkSync`, which the script swallows, is assumed not to
    happen;
  - the target URL from the command line and the console output are not
    modelled.
- Timestamp-based temporary file names (`Date.now()`): they depend on the
  clock. The output path is a parameter.
- Express, MongoDB, Cloudinary and soundcloud-downloader set-up and calls in
  `index.js`: their results are the `External` record.
- The cover image lookup from SoundCloud metadata is not modelled. Its
  result is the `coverImage` field of `External`.
- `ScUpload.Db.HandleScUpload`, other failures:
  - failures of the store's writes and of `unlinkSync` are not modelled;
  - the 500 "Server error" path of the outer `catch` is not modelled;
  - a playlist id that the store cannot cast to an object id, which would
    throw after the song is saved, is not modelled.

  Ids are opaque strings. The store's fresh ids are assumed to be unused,
  which is the meaning of `requires`.
- ScUpload.Db.HandleScUpload: body values other than strings and absent
  ones are not modelled. A truthy non-string `url`, such as `123`, passes
  validation. `url.split` then throws, and the route answers 500
  "Download failed" instead of 400. A number or boolean `title` or `artist` is
  converted to text and saved. An object or array makes the song save fail,
  and the route answers 500 "Download failed" after the upload.
- ScUpload.Db.HandleScUpload: a failed write of the temporary file is not
  modelled. The route listens only for errors of the download stream and
  for the file stream's "finish", so after a failed write it sends no
  response at all.
- ScUpload.Db.HandleScUpload: `Uploaded` with no playlist does not tell a
  missing `playlist` key from `"playlist": null`.
- HtmlEscape.Escape: takes a string, while `escapeHtml` first converts its
  argument with `String(s)`. Its only caller passes a playlist name, which
  the schema requires to be a string.
- models/Song.js and models/Playlist.js: the schema defaults, required
  fields and timestamps are enforced by mongoose. Only the song's fields and
  a playlist's name and songs are kept.
- test.js: one call to an external library with console output.

=== FILE: download_ladder.dfy ===
/** The download fallback ladder of download_test.js: three yt-dlp option
    sets are tried in order until one call returns normally and leaves the
    output file on disk. The external tool is modelled by the sequence of
    outcomes its successive calls produce, the disk by whether the single
    output file is present. */
module DownloadTest {
  import opened Wrappers

  /** What a failed yt-dlp call throws; its contents are opaque here. */
  type ToolError = string

  /** The result of one call of the external tool: it either throws, possibly
      leaving a partial output file behind, or returns normally, after which
      the output file is or is not on disk. */
  datatype Outcome =
    | Throws(error: ToolError, fileLeft: bool)
    | Returns(fileNowExists: bool)
  {
    /** The only outcome the loop accepts as a download. */
    predicate Succeeded() { this == Returns(true) }
  }

  /** The options object handed to yt-dlp on one attempt. The first two
      objects of the list have no `allow_unplayable_formats` or `no_playlist`
      key at all; `false` in these two fields stands for "key absent", which
      yt-dlp treats like an unset flag. */
  datatype DownloadOptions = DownloadOptions(
    output: string,
    format: string,
    cookies: Option<string>,
    allowUnplayableFormats: bool,
    noPlaylist: bool)

  /** The three format selectors, in the order they are tried. */
  const Formats: seq<string> := ["bestaudio", "bestaudio[ext=webm]/bestaudio/best", "bestaudio/best"]

  /** `process.env.YT_COOKIES_PATH || undefined`: an unset or empty variable means no cookies. */
  function CookiesOption(env: Option<string>): (r: Option<string>)
    ensures r.Some? <==> env.Some? && env.value != ""
    ensures r.Some? ==> r == env
  {
    if env.Some? && env.value != "" then env else None
  }

  /** `downloadOptionsList`: every entry writes the same output path with the
      same cookies; only the last one adds the two permissive flags. */
  function OptionsList(filePath: string, cookiesEnv: Option<string>): (r: seq<DownloadOptions>)
    ensures |r| == |Formats|
    ensures forall i :: 0 <= i < |r| ==>
      r[i].output == filePath && r[i].format == Formats[i] && r[i].cookies == CookiesOption(cookiesEnv)
    ensures forall i :: 0 <= i < |r| ==>
      (r[i].allowUnplayableFormats <==> i == |r| - 1) && (r[i].noPlaylist <==> i == |r| - 1)
  {
    var cookies := CookiesOption(cookiesEnv);
    [ DownloadOptions(filePath, Formats[0], cookies, false, false),
      DownloadOptions(filePath, Formats[1], cookies, false, false),
      DownloadOptions(filePath, Formats[2], cookies, true, true) ]
  }

  /** The error of the most recent throwing outcome, or None when none threw. */
  function LastError(rs: seq<Outcome>): Option<ToolError>
  {
    if rs == [] then None
    else match rs[|rs| - 1]
      case Throws(e, _) => Some(e)
      case Returns(_) => LastError(rs[..|rs| - 1])
  }

  /** LastError names the error of the latest throw: None exactly when nothing
      threw, and otherwise the error of a throw that no later outcome follows
      with another throw. */
  lemma {:induction false} LastErrorIsMostRecent(rs: seq<Outcome>)
    ensures LastError(rs).None? <==> forall i :: 0 <= i < |rs| ==> !rs[i].Throws?
    ensures LastError(rs).Some? ==> exists i :: 0 <= i < |rs| && rs[i].Throws? && rs[i].error == LastError(rs).value &&
                                      forall j :: i < j < |rs| ==> !rs[j].Throws?
  {
    if rs != [] {
      var init := rs[..|rs| - 1];
      LastErrorIsMostRecent(init);
      assert forall i :: 0 <= i < |init| ==> init[i] == rs[i];
      if rs[|rs| - 1].Returns? && LastError(init).Some? {
        var i :| 0 <= i < |init| && init[i].Throws? && init[i].error == LastError(init).value &&
                 forall j :: i < j < |init| ==> !init[j].Throws?;
        assert rs[i] == init[i];
      }
    }
  }

  /** A normal return, whether or not it left a file, does not change lastError. */
  lemma ReturnKeepsLastError(rs: seq<Outcome>, b: bool)
    ensures LastError(rs + [Returns(b)]) == LastError(rs)
  {
    assert (rs + [Returns(b)])[..|rs|] == rs;
  }

  /** The test script's main loop and exit logic. `responses[k]` is what the
      k-th call of the tool produces; `presentAtStart` is whether the output
      file exists before the first attempt. Out-parameters: the options of
      each call in order, whether the file was present as each call started,
      the final `downloaded` and `lastError`, the exit code and whether the
      file is still on disk when the process exits. */
  method RunDownloadTest(filePath: string, cookiesEnv: Option<string>, presentAtStart: bool, responses: seq<Outcome>)
    returns (calls: seq<DownloadOptions>, presentBefore: seq<bool>, downloaded: bool,
             lastError: Option<ToolError>, exitCode: int, presentAtExit: bool)
    requires |responses| >= |Formats|
    ensures 1 <= |calls| <= |Formats| && calls == OptionsList(filePath, cookiesEnv)[..|calls|]
    ensures forall k :: 0 <= k < |calls| - 1 ==> !responses[k].Succeeded()
    ensures downloaded <==> responses[|calls| - 1].Succeeded()
    ensures !downloaded ==> |calls| == |Formats|
    ensures lastError == LastError(responses[..|calls|])
    ensures |presentBefore| == |calls| && presentBefore[0] == presentAtStart
    ensures forall k :: 1 <= k < |calls| ==> !presentBefore[k]
    ensures exitCode == if downloaded then 0 else 1
    ensures !presentAtExit
  {
    var options := OptionsList(filePath, cookiesEnv);
    var present := presentAtStart;
    calls, presentBefore := [], [];
    downloaded, lastError := false, None;
    var i := 0;
    while i < |options|
      invariant 0 <= i <= |options|
      invariant calls == options[..i] && |presentBefore| == i
      invariant i > 0 ==> presentBefore[0] == presentAtStart
      invariant forall k :: 1 <= k < i ==> !presentBefore[k]
      invariant if i == 0 then present == presentAtStart else !present
      invariant forall k :: 0 <= k < i ==> !responses[k].Succeeded()
      invariant lastError == LastError(responses[..i])
      invariant !downloaded
    {
      calls := calls + [options[i]];
      presentBefore := presentBefore + [present];
      assert responses[..i + 1] == responses[..i] + [responses[i]];
      match responses[i] {
        case Returns(fileNowExists) =>
          present := fileNowExists;
          if present {
            downloaded := true;
            i := i + 1;
            break;
          }
        case Throws(err, fileLeft) =>
          lastError := Some(err);
          present := fileLeft;
          if present {
            present := false;
          }
      }
      i := i + 1;
    }
    if downloaded {
      if present {
        present := false;
      }
      exitCode := 0;
    } else {
      exitCode := 1;
    }
    presentAtExit := present;
  }
}

=== FILE: html_escape.dfy ===
/** The browser client's `escapeHtml` helper (public/app.js): every `&`, `<`,
    `>` and `"` of a string is replaced by its HTML entity, every other
    character is copied as it is. */
module HtmlEscape {

  /** The four characters the helper rewrites. */
  predicate IsSpecial(c: char) {
    c == '&' || c == '<' || c == '>' || c == '"'
  }

  /** A string in which none of the four rewritten characters occurs. */
  predicate NoSpecial(s: string) {
    '&' !in s && '<' !in s && '>' !in s && '"' !in s
  }

  /** One character's replacement, as the helper's lookup table gives it. */
  function EscapeChar(c: char): (r: string)
    ensures !IsSpecial(c) ==> r == [c]
    ensures IsSpecial(c) ==> |r| >= 4 && r[0] == '&' && r[|r| - 1] == ';'
  {
    if c == '&' then "&amp;"
    else if c == '<' then "&lt;"
    else if c == '>' then "&gt;"
    else if c == '"' then "&quot;"
    else [c]
  }

  /** `escapeHtml(s)`: the global replace, character by character, left to right. */
  function Escape(s: string): (r: string)
    ensures |r| >= |s|
  {
    if s == [] then [] else EscapeChar(s[0]) + Escape(s[1..])
  }

  /** True when one of the four entities starts at position `i` of `r`. */
  predicate EntityAt(r: string, i: int) {
    0 <= i <= |r| &&
    ("&amp;" <= r[i..] || "&lt;" <= r[i..] || "&gt;" <= r[i..] || "&quot;" <= r[i..])
  }

  /** Number of occurrences of `c` in `s`. */
  function Count(s: string, c: char): nat
  {
    if s == [] then 0 else (if s[0] == c then 1 else 0) + Count(s[1..], c)
  }

  /** Decodes the four entities the helper produces; any other character,
      including an `&` that starts none of them, is copied. This is the
      reference inverse against which the escape is checked. */
  function Unescape(s: string): (r: string)
  {
    if s == [] then []
    else if "&amp;" <= s then "&" + Unescape(s[5..])
    else if "&lt;" <= s then "<" + Unescape(s[4..])
    else if "&gt;" <= s then ">" + Unescape(s[4..])
    else if "&quot;" <= s then "\"" + Unescape(s[6..])
    else [s[0]] + Unescape(s[1..])
  }

  lemma {:induction false} CountConcat(a: string, b: string, c: char)
    ensures Count(a + b, c) == Count(a, c) + Count(b, c)
  {
    if a != [] {
      assert (a + b)[0] == a[0];
      assert (a + b)[1..] == a[1..] + b;
      CountConcat(a[1..], b, c);
    } else {
      assert a + b == b;
    }
  }

  lemma {:induction false} CountZeroIff(s: string, c: char)
    ensures Count(s, c) == 0 <==> c !in s
  {
    if s != [] {
      CountZeroIff(s[1..], c);
      assert s == [s[0]] + s[1..];
    }
  }

  /** Escaping distributes over concatenation: each character is replaced
      on its own and the replacements stay in input order. */
  lemma {:induction false} EscapeConcat(a: string, b: string)
    ensures Escape(a + b) == Escape(a) + Escape(b)
  {
    if a == [] {
      assert a + b == b;
    } else {
      assert (a + b)[0] == a[0];
      assert (a + b)[1..] == a[1..] + b;
      EscapeConcat(a[1..], b);
    }
  }

  /** No `<`, `>` or `"` survives escaping. */
  lemma {:induction false} EscapeNoMarkup(s: string)
    ensures '<' !in Escape(s) && '>' !in Escape(s) && '"' !in Escape(s)
  {
    if s != [] {
      EscapeNoMarkup(s[1..]);
      var p, q := EscapeChar(s[0]), Escape(s[1..]);
      assert '<' !in p && '>' !in p && '"' !in p;
      assert Escape(s) == p + q;
    }
  }

  lemma ShiftEntity(p: string, q: string, j: int)
    requires EntityAt(q, j)
    ensures EntityAt(p + q, |p| + j)
  {
    assert (p + q)[|p| + j..] == q[j..];
  }

  lemma EntityAtStart(c: char, q: string)
    requires IsSpecial(c)
    ensures EntityAt(EscapeChar(c) + q, 0)
  {
    var p := EscapeChar(c);
    assert (p + q)[0..] == p + q;
    assert p <= p + q;
  }

  /** Every `&` of the output is the first character of one of the four entities. */
  lemma {:induction false} AmpersandsBeginEntities(s: string)
    ensures forall i :: 0 <= i < |Escape(s)| && Escape(s)[i] == '&' ==> EntityAt(Escape(s), i)
  {
    if s != [] {
      AmpersandsBeginEntities(s[1..]);
      var p, q := EscapeChar(s[0]), Escape(s[1..]);
      assert Escape(s) == p + q;
      forall i | 0 <= i < |p + q| && (p + q)[i] == '&'
        ensures EntityAt(p + q, i)
      {
        if i < |p| {
          assert p[i] == '&';
          EntityAtStart(s[0], q);
        } else {
          assert q[i - |p|] == '&';
          ShiftEntity(p, q, i - |p|);
        }
      }
    }
  }

  /** A string without any of the four characters is left unchanged; in
      particular the single quote `'` is not escaped. */
  lemma {:induction false} EscapeNoSpecial(s: string)
    requires NoSpecial(s)
    ensures Escape(s) == s
  {
    if s != [] {
      assert s == [s[0]] + s[1..];
      assert NoSpecial(s[1..]);
      EscapeNoSpecial(s[1..]);
    }
  }

  /** The output is 4 characters longer per `&`, 3 per `<` or `>`, 5 per `"`. */
  lemma {:induction false} EscapeLength(s: string)
    ensures |Escape(s)| == |s| + 4 * Count(s, '&') + 3 * Count(s, '<') + 3 * Count(s, '>') + 5 * Count(s, '"')
  {
    if s != [] {
      EscapeLength(s[1..]);
    }
  }

  /** Escaping changes the string exactly when it holds one of the four characters. */
  lemma {:induction false} EscapeIdentityIff(s: string)
    ensures Escape(s) == s <==> NoSpecial(s)
  {
    if NoSpecial(s) {
      EscapeNoSpecial(s);
    } else {
      EscapeLength(s);
      CountZeroIff(s, '&');
      CountZeroIff(s, '<');
      CountZeroIff(s, '>');
      CountZeroIff(s, '"');
    }
  }

  /** Each rewritten character contributes exactly one `&` to the output. */
  lemma {:induction false} EscapeAmpersandCount(s: string)
    ensures Count(Escape(s), '&') == Count(s, '&') + Count(s, '<') + Count(s, '>') + Count(s, '"')
  {
    if s != [] {
      EscapeAmpersandCount(s[1..]);
      CountConcat(EscapeChar(s[0]), Escape(s[1..]), '&');
      EntityAmpersandCount(s[0]);
    }
  }

  lemma EntityAmpersandCount(c: char)
    ensures Count(EscapeChar(c), '&') == if IsSpecial(c) then 1 else 0
  {
    var r := EscapeChar(c);
    if IsSpecial(c) {
      assert r == [r[0]] + r[1..];
      assert '&' !in r[1..];
      CountZeroIff(r[1..], '&');
    }
  }

  lemma UnescapeCons(c: char, t: string)
    ensures Unescape(EscapeChar(c) + t) == [c] + Unescape(t)
  {
    var u := EscapeChar(c) + t;
    if c == '&' {
      assert "&amp;" <= u && u[5..] == t;
    } else if c == '<' {
      assert u[1] == 'l' && "&lt;" <= u && u[4..] == t;
    } else if c == '>' {
      assert u[1] == 'g' && "&gt;" <= u && u[4..] == t;
    } else if c == '"' {
      assert u[1] == 'q' && "&quot;" <= u && u[6..] == t;
    } else {
      assert u[0] == c && u[1..] == t;
    }
  }

  /** Decoding the entities recovers the input exactly. */
  lemma {:induction false} UnescapeEscape(s: string)
    ensures Unescape(Escape(s)) == s
  {
    if s != [] {
      UnescapeEscape(s[1..]);
      UnescapeCons(s[0], Escape(s[1..]));
      assert s == [s[0]] + s[1..];
    }
  }

  /** Different inputs never escape to the same output. */
  lemma EscapeInjective(a: string, b: string)
    requires Escape(a) == Escape(b)
    ensures a == b
  {
    UnescapeEscape(a);
    UnescapeEscape(b);
  }

  /** Escaping twice equals escaping once only for strings it leaves alone:
      `&` becomes `&amp;` and then `&amp;amp;`. */
  lemma {:induction false} EscapeIdempotentIff(s: string)
    ensures Escape(Escape(s)) == Escape(s) <==> NoSpecial(s)
  {
    EscapeIdentityIff(Escape(s));
    EscapeNoMarkup(s);
    EscapeAmpersandCount(s);
    CountZeroIff(Escape(s), '&');
    CountZeroIff(s, '&');
    CountZeroIff(s, '<');
    CountZeroIff(s, '>');
    CountZeroIff(s, '"');
  }
}

=== FILE: sc_upload.dfy ===
/** The decision logic of the `/sc-upload` route (index.js): validate the
    request, strip the query string from the SoundCloud URL, download and
    upload the track, save the song with a default artist, then either create
    a playlist for it or append it to an existing one. The downloader, the
    media host and the document store's id generation are opaque steps whose
    results arrive in an `External` record; the store itself is a class. */
module ScUpload {
  import opened Wrappers

  type SongId = string
  type PlaylistId = string

  /** The JSON body's five properties; None when the property is absent. */
  datatype Request = Request(
    url: Option<string>,
    title: Option<string>,
    artist: Option<string>,
    playlistId: Option<string>,
    newPlaylistName: Option<string>)

  /** JavaScript truthiness of an optional string: present and non-empty. */
  predicate Truthy(o: Option<string>) {
    o.Some? && o.value != ""
  }

  /** `!url || !title` is false. */
  predicate HasRequiredFields(req: Request) {
    Truthy(req.url) && Truthy(req.title)
  }

  /** `url.split("?")[0]`: the part of the URL before its first `?`. */
  function CleanUrl(url: string): (r: string)
    ensures r <= url
    ensures '?' !in r
    ensures |r| < |url| ==> url[|r|] == '?'
  {
    if url == [] || url[0] == '?' then [] else [url[0]] + CleanUrl(url[1..])
  }

  /** A URL without a query string is left as it is. */
  lemma CleanUrlNoQuery(url: string)
    requires '?' !in url
    ensures CleanUrl(url) == url
  {
    if |CleanUrl(url)| < |url| {
      assert url[|CleanUrl(url)|] == '?';
    }
  }

  /** Cleaning an already cleaned URL changes nothing. */
  lemma CleanUrlIdempotent(url: string)
    ensures CleanUrl(CleanUrl(url)) == CleanUrl(url)
  {
    CleanUrlNoQuery(CleanUrl(url));
  }

  const UnknownArtist: string := "Unknown Artist"
  const MissingFieldsError: string := "Missing required fields"
  const DownloadFailedError: string := "Download failed"

  /** `artist || "Unknown Artist"`: the stored artist is never empty. */
  function StoredArtist(artist: Option<string>): (r: string)
    ensures r != ""
    ensures Truthy(artist) ==> r == artist.value
    ensures !Truthy(artist) ==> r == UnknownArtist
  {
    if Truthy(artist) then artist.value else UnknownArtist
  }

  datatype Song = Song(title: string, artist: string, url: string, coverImage: string)

  datatype Playlist = Playlist(name: string, songs: seq<SongId>)

  /** The playlist collection after the route's playlist rule: a non-empty new
      name creates a playlist holding just the song and the given id is
      ignored; otherwise an existing playlist with the given id gets the song
      appended; an unknown or absent id changes nothing. */
  function PlaylistsAfter(ps: map<PlaylistId, Playlist>, newPlaylistName: Option<string>, playlistId: Option<string>,
                          song: SongId, freshId: PlaylistId): (r: map<PlaylistId, Playlist>)
    requires freshId !in ps
    ensures Truthy(newPlaylistName) ==>
      r.Keys == ps.Keys + {freshId} && r[freshId] == Playlist(newPlaylistName.value, [song]) &&
      forall q :: q in ps ==> r[q] == ps[q]
    ensures !Truthy(newPlaylistName) && Truthy(playlistId) && playlistId.value in ps ==>
      var p := playlistId.value;
      r.Keys == ps.Keys && r[p].name == ps[p].name && |r[p].songs| == |ps[p].songs| + 1 &&
      r[p].songs[..|ps[p].songs|] == ps[p].songs && r[p].songs[|ps[p].songs|] == song &&
      forall q :: q in ps && q != p ==> r[q] == ps[q]
    ensures !Truthy(newPlaylistName) && !(Truthy(playlistId) && playlistId.value in ps) ==> r == ps
  {
    if Truthy(newPlaylistName) then
      ps[freshId := Playlist(newPlaylistName.value, [song])]
    else if Truthy(playlistId) && playlistId.value in ps then
      var p := playlistId.value;
      ps[p := ps[p].(songs := ps[p].songs + [song])]
    else
      ps
  }

  /** The playlist the response reports, if any. */
  function ReportedPlaylist(ps: map<PlaylistId, Playlist>, newPlaylistName: Option<string>, playlistId: Option<string>,
                            freshId: PlaylistId): (r: Option<PlaylistId>)
    ensures r.Some? <==> Truthy(newPlaylistName) || (Truthy(playlistId) && playlistId.value in ps)
    ensures Truthy(newPlaylistName) ==> r == Some(freshId)
    ensures !Truthy(newPlaylistName) && r.Some? ==> r == Some(playlistId.value)
  {
    if Truthy(newPlaylistName) then Some(freshId)
    else if Truthy(playlistId) && playlistId.value in ps then Some(playlistId.value)
    else None
  }

  /** The store accesses of the playlist rule, in order: a new name leads to
      one write of the new playlist; otherwise a present id is looked up, and
      the playlist found, if any, is written back. */
  function PlaylistEffects(ps: map<PlaylistId, Playlist>, newPlaylistName: Option<string>, playlistId: Option<string>,
                           freshId: PlaylistId): (r: seq<Effect>)
    ensures (|r| > 0 && r[0].FindPlaylist?) <==> !Truthy(newPlaylistName) && Truthy(playlistId)
    ensures !Truthy(newPlaylistName) && Truthy(playlistId) ==> r[0] == FindPlaylist(playlistId.value)
    ensures |r| <= 2
    ensures forall i :: 1 <= i < |r| ==> !r[i].FindPlaylist?
    ensures forall i :: 0 <= i < |r| - 1 ==> !r[i].SavePlaylist?
    ensures forall i :: 0 <= i < |r| && r[i].SavePlaylist? ==>
      Some(r[i].playlist) == ReportedPlaylist(ps, newPlaylistName, playlistId, freshId)
    ensures ReportedPlaylist(ps, newPlaylistName, playlistId, freshId).Some? ==> |r| > 0 && r[|r| - 1].SavePlaylist?
    ensures forall i :: 0 <= i < |r| ==> !r[i].Download? && !r[i].Upload? && !r[i].RemoveTempFile? && !r[i].SaveSong?
  {
    if Truthy(newPlaylistName) then [SavePlaylist(freshId)]
    else if !Truthy(playlistId) then []
    else if playlistId.value in ps then [FindPlaylist(playlistId.value), SavePlaylist(playlistId.value)]
    else [FindPlaylist(playlistId.value)]
  }

  /** Results of the opaque steps: whether the SoundCloud download stream
      ends without an error, the secure URL the media host
      returns (None when the upload fails), the cover image found in the
      track's metadata (empty when none), and the ids the store gives the
      new song and a new playlist. */
  datatype External = External(
    downloadOk: bool,
    uploadedUrl: Option<string>,
    coverImage: string,
    songId: SongId,
    newPlaylistId: PlaylistId)

  /** The externally visible steps of one request, in order. */
  datatype Effect =
    | Download(url: string)
    | Upload
    | RemoveTempFile
    | SaveSong(song: SongId)
    | FindPlaylist(playlist: PlaylistId)
    | SavePlaylist(playlist: PlaylistId)

  /** The route's answer. In `Uploaded`, `playlist: None` stands for two
      JSON bodies: with neither a new name nor an id the `playlist` key is
      missing (the variable stays undefined), and with an id the store does
      not know the body carries `"playlist": null`. */
  datatype Response =
    | BadRequest(error: string)
    | ServerError(error: string)
    | Uploaded(song: SongId, playlist: Option<PlaylistId>)
  {
    function Status(): int {
      match this
      case BadRequest(_) => 400
      case ServerError(_) => 500
      case Uploaded(_, _) => 200
    }
  }

  /** The song and playlist collections of the document store. */
  class Db {
    var songs: map<SongId, Song>
    var playlists: map<PlaylistId, Playlist>

    constructor (songs0: map<SongId, Song>, playlists0: map<PlaylistId, Playlist>)
      ensures songs == songs0 && playlists == playlists0
    {
      songs, playlists := songs0, playlists0;
    }

    /** The route's playlist step for a saved song: create a new playlist, or
        look the given id up and push the song onto the one found. */
    method ApplyPlaylistRule(newPlaylistName: Option<string>, playlistId: Option<string>, song: SongId, freshId: PlaylistId)
      returns (reported: Option<PlaylistId>, effects: seq<Effect>)
      requires freshId !in playlists
      modifies this
      ensures songs == old(songs)
      ensures playlists == PlaylistsAfter(old(playlists), newPlaylistName, playlistId, song, freshId)
      ensures reported == ReportedPlaylist(old(playlists), newPlaylistName, playlistId, freshId)
      ensures effects == PlaylistEffects(old(playlists), newPlaylistName, playlistId, freshId)
    {
      reported, effects := None, [];
      if Truthy(newPlaylistName) {
        playlists := playlists[freshId := Playlist(newPlaylistName.value, [song])];
        reported := Some(freshId);
        effects := [SavePlaylist(freshId)];
      } else if Truthy(playlistId) {
        var id := playlistId.value;
        effects := [FindPlaylist(id)];
        if id in playlists {
          var found := playlists[id];
          playlists := playlists[id := found.(songs := found.songs + [song])];
          reported := Some(id);
          effects := effects + [SavePlaylist(id)];
        }
      }
    }

    /** One POST to `/sc-upload`. A request without a url or a title is
        refused with 400 before any other step; a failed download or upload
        answers 500 and stores nothing; otherwise the song is stored with
        the default artist applied and the playlist rule runs. */
    method HandleScUpload(req: Request, ext: External) returns (resp: Response, effects: seq<Effect>)
      requires ext.songId !in songs && ext.newPlaylistId !in playlists
      modifies this
      ensures !HasRequiredFields(req) ==>
        resp == BadRequest(MissingFieldsError) && resp.Status() == 400 && effects == [] &&
        songs == old(songs) && playlists == old(playlists)
      ensures HasRequiredFields(req) ==> |effects| >= 1 && effects[0] == Download(CleanUrl(req.url.value))
      ensures HasRequiredFields(req) && !ext.downloadOk ==>
        resp == ServerError(DownloadFailedError) && effects == [Download(CleanUrl(req.url.value))] &&
        songs == old(songs) && playlists == old(playlists)
      ensures HasRequiredFields(req) && ext.downloadOk && ext.uploadedUrl.None? ==>
        resp == ServerError(DownloadFailedError) && effects == [Download(CleanUrl(req.url.value)), Upload] &&
        songs == old(songs) && playlists == old(playlists)
      ensures HasRequiredFields(req) && ext.downloadOk && ext.uploadedUrl.Some? ==>
        resp == Uploaded(ext.songId, ReportedPlaylist(old(playlists), req.newPlaylistName, req.playlistId, ext.newPlaylistId)) &&
        resp.Status() == 200 &&
        songs == old(songs)[ext.songId := Song(req.title.value, StoredArtist(req.artist), ext.uploadedUrl.value, ext.coverImage)] &&
        playlists == PlaylistsAfter(old(playlists), req.newPlaylistName, req.playlistId, ext.songId, ext.newPlaylistId) &&
        effects == [Download(CleanUrl(req.url.value)), Upload, RemoveTempFile, SaveSong(ext.songId)] +
                   PlaylistEffects(old(playlists), req.newPlaylistName, req.playlistId, ext.newPlaylistId)
    {
      if !HasRequiredFields(req) {
        return BadRequest(MissingFieldsError), [];
      }
      var cleanUrl := CleanUrl(req.url.value);
      effects := [Download(cleanUrl)];
      if !ext.downloadOk {
        return ServerError(DownloadFailedError), effects;
      }
      effects := effects + [Upload];
      if ext.uploadedUrl.None? {
        return ServerError(DownloadFailedError), effects;
      }
      effects := effects + [RemoveTempFile];
      var song := Song(req.title.value, StoredArtist(req.artist), ext.uploadedUrl.value, ext.coverImage);
      songs := songs[ext.songId := song];
      effects := effects + [SaveSong(ext.songId)];
      var reported, playlistEffects := ApplyPlaylistRule(req.newPlaylistName, req.playlistId, ext.songId, ext.newPlaylistId);
      effects := effects + playlistEffects;
      resp := Uploaded(ext.songId, reported);
    }
  }
}

=== FILE: upload_form.dfy ===
/** The upload form of the browser client (public/app.js): how the submit
    handler builds the JSON payload from the five text fields, and which
    fields it clears once the server reports success. */
module UploadForm {

  /** The values of the form's five inputs; an untouched input holds "". */
  datatype Fields = Fields(url: string, title: string, artist: string, playlistId: string, newPlaylistName: string)

  /** A JSON object with string values, keyed by property name. */
  type Payload = map<string, string>

  const PayloadKeys: set<string> := {"url", "title", "artist", "playlistId", "newPlaylistName"}

  /** What a receiver reads back from a payload when it treats a missing
      property like an empty one (both are falsy in JavaScript). */
  function Received(payload: Payload): Fields
  {
    Fields(
      if "url" in payload then payload["url"] else "",
      if "title" in payload then payload["title"] else "",
      if "artist" in payload then payload["artist"] else "",
      if "playlistId" in payload then payload["playlistId"] else "",
      if "newPlaylistName" in payload then payload["newPlaylistName"] else "")
  }

  /** The submit handler's payload: `url` and `title` always, each optional
      field only when its input is non-empty. */
  method BuildPayload(f: Fields) returns (payload: Payload)
    ensures payload.Keys <= PayloadKeys
    ensures "url" in payload && payload["url"] == f.url
    ensures "title" in payload && payload["title"] == f.title
    ensures "artist" in payload <==> f.artist != ""
    ensures "playlistId" in payload <==> f.playlistId != ""
    ensures "newPlaylistName" in payload <==> f.newPlaylistName != ""
    ensures forall k :: k in payload ==> payload[k] != "" || k == "url" || k == "title"
    ensures Received(payload) == f
  {
    payload := map["url" := f.url, "title" := f.title];
    if f.artist != "" {
      payload := payload["artist" := f.artist];
    }
    if f.playlistId != "" {
      payload := payload["playlistId" := f.playlistId];
    }
    if f.newPlaylistName != "" {
      payload := payload["newPlaylistName" := f.newPlaylistName];
    }
  }

  /** The live form. */
  class Form {
    var url: string
    var title: string
    var artist: string
    var playlistId: string
    var newPlaylistName: string

    function Snapshot(): Fields
      reads this
    {
      Fields(url, title, artist, playlistId, newPlaylistName)
    }

    constructor (f: Fields)
      ensures Snapshot() == f
    {
      url, title, artist, playlistId, newPlaylistName := f.url, f.title, f.artist, f.playlistId, f.newPlaylistName;
    }

    /** What the handler does with the server's answer: on failure nothing is
        cleared; on success `url` and `title` are cleared, and `artist` and
        `newPlaylistName` only when the submission carried no playlist id,
        so that a batch into one playlist keeps its settings. The playlist id
        input itself is never cleared. `submitted` holds the values read at
        submit time; the result says whether the playlist list is fetched again. */
    method AfterResponse(success: bool, submitted: Fields) returns (refreshPlaylists: bool)
      modifies this
      ensures !success ==> Snapshot() == old(Snapshot())
      ensures success ==> url == "" && title == ""
      ensures playlistId == old(playlistId)
      ensures success && submitted.playlistId == "" ==> artist == "" && newPlaylistName == ""
      ensures !success || submitted.playlistId != "" ==> artist == old(artist) && newPlaylistName == old(newPlaylistName)
      ensures refreshPlaylists <==> success && submitted.newPlaylistName != ""
    {
      refreshPlaylists := false;
      if success {
        url := "";
        title := "";
        if submitted.playlistId == "" {
          artist := "";
          newPlaylistName := "";
        }
        if submitted.newPlaylistName != "" {
          refreshPlaylists := true;
        }
      }
    }
  }
}

=== FILE: wrappers.dfy ===
/** Optional values, used for the fields a JSON body or an environment
    variable may leave out. */
module Wrappers {

  datatype Option<+T> = None | Some(value: T)
}
